=== FILE: README.md ===
# Mamdani and threshold combiners of a two-model content moderator

The system runs two object-detection models over an image and turns their
confidences into one verdict. It does this in one of two ways:

- **`mamdani_2_input.py`** combines two confidences with a small Mamdani fuzzy system:
  - Three triangular categories (low, medium, high) are sampled on the grid 0, 0.1, …, 1.0.
  - Each input is fuzzified by interpolating those sampled curves.
  - Three max/min rules follow.
  - Aggregation takes the max of the three rule degrees.
  - A centroid defuzzification gives the output.
  - An admission gate in `main` decides whether the combiner runs at all.
  - Each input is the confidence of the first detection of a target class.
- **`no_mamdani.py`** keeps, for each model, the largest confidence seen per class. It merges the two maps, with the second model winning on a shared class. The content is "explicit" when any merged confidence is strictly above 0.7.

This Dafny project models both. Confidences are exact reals in [0, 1]
(`Common.Confidence`), and the sample grid is exactly k/10. The three library
calls are given their textbook definitions in module `FuzzyLib`:

- `trimf` is the triangle on (a, b, c).
- `interp_membership` is piecewise-linear interpolation of the samples.
- `defuzz(..., 'centroid')` is Σxμ/Σμ. It is absent when Σμ = 0.

Modules:

- `Common` holds Option, max/min, confidences and detections.
- `FuzzyLib` holds the library primitives.
- `Mamdani` models `mamdani_2_input.py`.
- `Threshold` models `no_mamdani.py`.
- `Adapters` relates the two scripts' ways of reading detections.

What the proofs establish about the code as written:

- **Categories.** The three categories form a partition of unity on [0, 1].
- **Interpolation.** Interpolating the 11 samples is exact, because every breakpoint (0, 0.5, 1) is a grid point.
- **Defuzzification.** The rules produce scalars. Their max is broadcast to a flat 11-sample curve, so the size check can never fail. The centroid of a flat curve is the middle of the domain, so every crisp result is exactly 0.5, whatever the inputs.
- **Gate.** The gate admits (0.5, 0), where all three rule degrees are 0. This is the only input whose aggregated curve has zero area.

Further facts about the code:

- Two fully certain inputs, (1, 1), defuzzify to 0.5 (`Mamdani.BothCertainGiveHalf`).
- `trimf([0.5, 1, 1])` is a ramp from 0 at 0.5 to 1 at 1.
- `detect_objects` returns the first match, not the maximum (`Adapters.FirstMatchIsNotMax`).

## Model

| member | source | states |
|---|---|---|
| FuzzyLib.Trimf | mamdani_2_input.py:44-46 | A triangle degree lies in [0, 1]. It is 1 exactly at the peak, and positive exactly at the peak or strictly between the feet, which also covers the one-sided triangles whose foot coincides with the peak. |
| FuzzyLib.Interp | mamdani_2_input.py:66-72 | At or left of the first sample position the interpolant is the first sample. At or right of the last position it is the last sample. |
| FuzzyLib.InterpAtSample | mamdani_2_input.py:66-72 | Interpolating a sampled curve at a sample position returns that sample exactly. |
| FuzzyLib.InterpOnCell | mamdani_2_input.py:66-72 | Between two neighbouring sample positions the interpolant is the straight line through those two samples. |
| FuzzyLib.InterpWithinBand | mamdani_2_input.py:66-72 | Interpolation never leaves the band [lo, hi] that all samples lie in. |
| FuzzyLib.Centroid | mamdani_2_input.py:105 | For a curve without negative samples, the centroid is absent exactly when every sample is 0. A present centroid times the area equals the first moment. |
| FuzzyLib.CentroidWithinDomain | mamdani_2_input.py:105 | A centroid over non-negative weights lies within the span of the positions. |
| Mamdani.Degree | mamdani_2_input.py:44-46 | Each category's degree lies in [0, 1] and equals 1 exactly at that category's peak: 0 for low, 0.5 for medium, 1 for high. |
| Mamdani.CategoryShapes | mamdani_2_input.py:44-46 | low(0) = medium(0.5) = high(1) = 1. Low vanishes from 0.5 on, high vanishes up to 0.5, and medium vanishes exactly outside (0, 1). |
| Mamdani.PartitionOfUnity | mamdani_2_input.py:44-46 | On [0, 1] each degree lies in [0, 1] and the three degrees add up to 1. |
| Mamdani.MediumSymmetric | mamdani_2_input.py:45 | medium(0.5 − d) = medium(0.5 + d) for d in [0, 0.5]. |
| Mamdani.InterpolationExact | mamdani_2_input.py:61-72 | Interpolating a category's 11 samples at any input in [0, 1] gives the exact triangle degree. |
| Mamdani.Fuzzify | mamdani_2_input.py:61-72 | Fuzzifying an input gives its exact low, medium and high degrees. They lie in [0, 1] and sum to 1. |
| Mamdani.FuzzyRules | mamdani_2_input.py:75-79 | The rule degrees are max(in1 low, in2 high), min(in1 medium, in2 medium) and max(in1 high, in2 medium), taken of the exact triangle degrees, and each lies in [0, 1]. |
| Mamdani.RulesVanishExactly | mamdani_2_input.py:75-77 | All three rule degrees are 0 if and only if input 1 is 0.5 and input 2 is 0. |
| Mamdani.DefuzzifyCurve | mamdani_2_input.py:99-106 | The size-mismatch outcome (`None`) occurs exactly when the curve's length is not 11, so an 11-sample curve always reaches the centroid. A crisp result comes from an 11-sample curve and is its centroid: the value times the curve's sum equals Σ x·μ over the grid. A non-negative 11-sample curve has an undefined centroid exactly when it is all zeros. A crisp result of a non-negative curve lies in [0, 1]. |
| Mamdani.FlatCentroid | mamdani_2_input.py:93-106 | The centroid of a flat curve of height m over the grid is 0.5 when m ≠ 0 and undefined when m = 0. |
| Mamdani.Defuzzification | mamdani_2_input.py:91-106 | Defuzzifying the rule outputs never hits the size mismatch, and every crisp result is 0.5. For rule outputs in [0, 1], the centroid is undefined exactly when all three are 0. |
| Mamdani.Admits | mamdani_2_input.py:176 | The gate admits only when some input exceeds 0.07. It rejects input 1 above 0.07 with input 2 in (0, 0.7]. When both inputs are non-zero it demands input 2 above 0.7. |
| Mamdani.Decide | mamdani_2_input.py:176-183 | `main` rejects exactly what the gate rejects. An admitted pair never meets the size mismatch: it ends either in a crisp 0.5 or at a zero-area centroid, and the zero-area case occurs if and only if the pair is (0.5, 0). |
| Mamdani.DegenerateInputAdmitted | mamdani_2_input.py:176-178 | The gate admits (0.5, 0), all three rule degrees are 0 there, and defuzzification meets a zero area. |
| Mamdani.WeakInputAdmitted | mamdani_2_input.py:175-176 | The gate admits (0.1, 0), although neither confidence exceeds the 0.7 named in the comment above it. |
| Mamdani.BothCertainGiveHalf | mamdani_2_input.py:176-178 | Two fully certain inputs (1, 1) are admitted and defuzzify to 0.5. |
| Mamdani.AdmitsIntended | mamdani_2_input.py:175-176 | The gate with 0.7 in every comparison admits only when some input exceeds 0.7. |
| Mamdani.DecideIntended | mamdani_2_input.py:175-180 | With the intended gate, every admitted pair defuzzifies to a crisp 0.5. |
| Mamdani.FirstMatch | mamdani_2_input.py:21-29 | The scan returns the confidence of the first detection of the target class, or 0 when no detection has that class. |
| Mamdani.DetectObjects | mamdani_2_input.py:19-32 | A failed model run reads as 0. A successful run gives the confidence of the first detection of the target class, or 0 when no detection has that class. |
| Mamdani.Evaluate | mamdani_2_input.py:169-178 | `main` rejects exactly when the gate rejects the two adapter readings. Two failed model runs are rejected. An admitted pair never meets the size mismatch: it ends either in a crisp 0.5 or at a zero-area centroid, and the zero-area case occurs if and only if the readings are 0.5 and 0. Every other admitted pair gives a crisp 0.5. |
| Mamdani.FailedSecondRunReachesZeroArea | mamdani_2_input.py:169-178 | A first-model target detection of exactly 0.5 with a failed second-model run is admitted and reaches the zero-area centroid. |
| Threshold.FoldMax | no_mamdani.py:21-37 | A class is a key exactly when some detection has that class. Its value is the confidence of one of those detections and is at least the confidence of every detection of that class. |
| Threshold.ClassMaxUnique | no_mamdani.py:31-35 | At most one map has that per-class-maximum property for given detections. |
| Threshold.FoldMaxOrderIndependent | no_mamdani.py:24-35 | Two detection sequences that are permutations of each other fold to the same map. |
| Threshold.Merge | no_mamdani.py:46 | The merged keys are the union of both maps' keys. A value comes from the second map when the key is there, otherwise from the first. |
| Threshold.Classify | no_mamdani.py:54 | The verdict is explicit exactly when some value is strictly above 0.7, and permitted exactly when every value is at most 0.7. |
| Threshold.Moderate | no_mamdani.py:42-54 | The content is explicit if and only if the second model has a detection above 0.7, or the first model has one above 0.7 in a class the second model never reported. |
| Threshold.NoDetectionsPermitted | no_mamdani.py:21-57 | No detections from either model give an empty map and a permitted verdict. |
| Threshold.ThresholdIsStrict | no_mamdani.py:54 | A confidence of exactly 0.7 is permitted, and 0.71 is explicit. |
| Threshold.LaterModelMasks | no_mamdani.py:46-54 | {a: 0.9} alone is explicit, but merged with {a: 0.1} from the second model it is permitted. |
| Threshold.MergeExample | no_mamdani.py:46-54 | Merging {a: 0.5} with {a: 0.9, b: 0.3} gives {a: 0.9, b: 0.3}, which is explicit. |
| Adapters.FirstMatchWithinClassMax | mamdani_2_input.py:21-29 | The first-match confidence never exceeds the per-class maximum that no_mamdani.py keeps. When that map has no entry for the class, the first match is 0. |
| Adapters.FirstMatchIsNotMax | mamdani_2_input.py:21-28 | With detections a: 0.2 then a: 0.9, the scan returns 0.2 while the class maximum is 0.9. |

## Findings

| source | as written | input that shows it | evidently intended | confidence | as-written member | corrected member |
|---|---|---|---|---|---|---|
| mamdani_2_input.py:175-176 | the gate compares input 1 (and, in the second clause, input 2) against 0.07 | (0.1, 0.0) is admitted although no confidence exceeds 0.7 | 0.7 in every comparison, as the comment on line 175 says | medium; not executed | Mamdani.WeakInputAdmitted | Mamdani.AdmitsIntended |
| mamdani_2_input.py:176-178 | the gate admits an input whose three rule degrees are all 0 | (0.5, 0.0): the aggregated curve is all zeros, so Σμ = 0 and the centroid is undefined; what the library does then is not modelled | every admitted pair yields a result | medium; not executed | Mamdani.DegenerateInputAdmitted | Mamdani.DecideIntended |

`Mamdani.Decide` models the gate as written. `Mamdani.DecideIntended` is `main` with the corrected gate. It is proved to defuzzify every pair it admits.

## Left out

- Loading and running the detection models, and resolving class ids to names (`model.names`). These are foreign calls. A run is modelled as the sequence of (class name, confidence) detections it yields, with the boxes of all result frames concatenated in order.
- The catch-all exception handler in `detect_objects` is modelled only as "a failed run reads as 0" (`Mamdani.DetectObjects` on `None`). The exception message and its printing are not modelled.
- Reading the image path from standard input, the file-existence checks, and all console printing and formatting. These are I/O.
- `plot_memberships`. It is visualisation only.
- IEEE floating point. `np.arange(0, 1.1, 0.1)` is modelled as the exact reals k/10, and numpy rounding is not modelled.
- The fuzzy library's own code is not part of this model:
  - The library's area-based centroid agrees with Σxμ/Σμ on the flat curves that actually occur here.
  - What the library does on a zero-area curve is not modelled. The model returns the distinct outcome `ZeroArea`.
- Outside the sampled range, `FuzzyLib.Interp` returns the nearest end sample. Inputs are confidences in [0, 1], so that case never arises.
- The `np.isscalar` test is not modelled as a test. On this path the aggregated value is always a scalar, so the model always broadcasts it.
- FuzzyLib.Interp: its own contract states only the clamping at both ends. Exactness at samples, linearity on each cell and the band bound are the separate lemmas listed above.

=== FILE: adapters.dfy ===
/** The two scripts read a model's detections differently: the Mamdani
    script takes the first detection of its target class, the threshold
    script keeps the maximum per class. This module relates the two. */
module Adapters {
  import opened Common
  import Mamdani
  import Threshold

  /** The first match never exceeds the class maximum, and both agree that
      an absent class reads as 0 (the map simply has no entry). */
  lemma {:induction false} FirstMatchWithinClassMax(dets: seq<Detection>, target: string)
    ensures target in Threshold.FoldMax(dets) ==>
              Mamdani.FirstMatch(dets, target) <= Threshold.FoldMax(dets)[target]
    ensures target !in Threshold.FoldMax(dets) ==> Mamdani.FirstMatch(dets, target) == 0.0
  {
    var m := Threshold.FoldMax(dets);
    if target in m {
      var d :| d in dets && d.className == target && d.conf == m[target];
      var i :| 0 <= i < |dets| && dets[i] == d;
      var k := Mamdani.FirstIndex(dets, target, i);
      assert dets[k] in dets;
    } else {
      forall i | 0 <= i < |dets|
        ensures dets[i].className != target
      {
        assert dets[i] in dets;
      }
    }
  }

  /** The first match is not the maximum: a weaker box listed first wins. */
  lemma FirstMatchIsNotMax()
    ensures Mamdani.FirstMatch([Detection("a", 0.2), Detection("a", 0.9)], "a") == 0.2
    ensures Threshold.FoldMax([Detection("a", 0.2), Detection("a", 0.9)])["a"] == 0.9
  {
    var dets := [Detection("a", 0.2), Detection("a", 0.9)];
    assert dets[..1] == [Detection("a", 0.2)];
    assert Threshold.FoldMax(dets[..1]) == map["a" := 0.2];
  }
}

=== FILE: common.dfy ===
/** Shared vocabulary of both combiners: optional results, the max/min
    operators the rules and the per-class fold use, and the detections an
    object-detection model hands back. */
module Common {

  /** A value that may be absent (the `None` the source returns). */
  datatype Option<+T> = None | Some(value: T)

  /** Larger of two reals (numpy's `fmax` and Python's `max` on numbers). */
  function Max(a: real, b: real): (r: real)
    ensures r >= a && r >= b
    ensures r == a || r == b
  {
    if a >= b then a else b
  }

  /** Smaller of two reals (numpy's `fmin`). */
  function Min(a: real, b: real): (r: real)
    ensures r <= a && r <= b
    ensures r == a || r == b
  {
    if a <= b then a else b
  }

  /** Certainty of a detector for one class in one image. */
  type Confidence = r: real | 0.0 <= r <= 1.0

  /** One detected box, reduced to the two fields the combiners read:
      the class name the model resolves its class id to, and the box's
      confidence. */
  datatype Detection = Detection(className: string, conf: Confidence)
}

=== FILE: fuzzy_lib.dfy ===
/** Textbook definitions of the three fuzzy-logic library primitives the
    Mamdani combiner calls: a triangular membership function, linear
    interpolation of a sampled curve, and centroid defuzzification. The
    library's own code is not part of this model; these are the standard
    definitions its documentation names. */
module FuzzyLib {
  import opened Common

  /** Triangular membership with feet `a`, `c` and peak `b`. A foot that
      coincides with the peak gives a one-sided triangle: nothing is
      assigned on the empty side, and the peak itself is always 1. */
  function Trimf(a: real, b: real, c: real, x: real): (r: real)
    requires a <= b <= c
    ensures 0.0 <= r <= 1.0
    ensures r == 1.0 <==> x == b
    ensures r > 0.0 <==> x == b || a < x < c
  {
    if x == b then 1.0
    else if a < x < b then RatioInUnit(x - a, b - a); (x - a) / (b - a)
    else if b < x < c then RatioInUnit(c - x, c - b); (c - x) / (c - b)
    else 0.0
  }

  lemma RatioInUnit(p: real, q: real)
    requires 0.0 < p < q
    ensures 0.0 < p / q < 1.0
  {
    var r := p / q;
    assert r * q == p;
    StrictCancel(0.0, r, q);
    StrictCancel(r, 1.0, q);
  }

  lemma MulNonNeg(a: real, b: real)
    requires a >= 0.0 && b >= 0.0
    ensures a * b >= 0.0
  {
  }

  lemma MulPos(a: real, b: real)
    requires a > 0.0 && b > 0.0
    ensures a * b > 0.0
  {
  }

  /** Cancelling a positive factor on both sides of an inequality. */
  lemma CancelPositive(a: real, b: real, s: real)
    requires s > 0.0
    ensures a * s <= b * s ==> a <= b
  {
    if b < a {
      MulPos(a - b, s);
    }
  }

  lemma StrictCancel(a: real, b: real, s: real)
    requires s > 0.0
    ensures a * s < b * s ==> a < b
  {
    if b <= a {
      MulNonNeg(a - b, s);
    }
  }

  /** Sample positions strictly increase from left to right. */
  predicate Increasing(xs: seq<real>) {
    forall i :: 0 <= i < |xs| - 1 ==> xs[i] < xs[i + 1]
  }

  /** The straight line through (x0, y0) and (x1, y1), evaluated at `v`. */
  function Lerp(x0: real, x1: real, y0: real, y1: real, v: real): (r: real)
    requires x0 < x1
    ensures v == x0 ==> r == y0
    ensures v == x1 ==> r == y1
    ensures x0 <= v <= x1 ==> Min(y0, y1) <= r <= Max(y0, y1)
  {
    var t := (v - x0) / (x1 - x0);
    LerpWeight(x0, x1, v);
    LerpBetween(t, y0, y1);
    y0 + t * (y1 - y0)
  }

  lemma LerpBetween(t: real, y0: real, y1: real)
    ensures 0.0 <= t <= 1.0 ==> Min(y0, y1) <= y0 + t * (y1 - y0) <= Max(y0, y1)
  {
    if t < 0.0 || t > 1.0 {
    } else if y0 <= y1 {
      MulNonNeg(t, y1 - y0);
      MulNonNeg(1.0 - t, y1 - y0);
    } else {
      MulNonNeg(t, y0 - y1);
      MulNonNeg(1.0 - t, y0 - y1);
    }
  }

  lemma LerpWeight(x0: real, x1: real, v: real)
    requires x0 < x1
    ensures v == x0 ==> (v - x0) / (x1 - x0) == 0.0
    ensures v == x1 ==> (v - x0) / (x1 - x0) == 1.0
    ensures x0 <= v <= x1 ==> 0.0 <= (v - x0) / (x1 - x0) <= 1.0
  {
    var d := x1 - x0;
    var t := (v - x0) / d;
    assert t * d == v - x0;
    CancelPositive(t, 0.0, d);
    CancelPositive(0.0, t, d);
    CancelPositive(t, 1.0, d);
    CancelPositive(1.0, t, d);
  }

  /** Piecewise-linear interpolation of the samples `ys` taken at the
      positions `xs`, evaluated at `v`; outside the sampled range the
      nearest end sample is returned. */
  function Interp(xs: seq<real>, ys: seq<real>, v: real): (r: real)
    requires |xs| == |ys| >= 1 && Increasing(xs)
    ensures v <= xs[0] ==> r == ys[0]
    ensures v >= xs[|xs| - 1] ==> r == ys[|ys| - 1]
    decreases |xs|
  {
    if |xs| == 1 then ys[0]
    else if v <= xs[0] then IncreasingApart(xs, 0, |xs| - 1); ys[0]
    else if v <= xs[1] then IncreasingApart(xs, 1, |xs| - 1); Lerp(xs[0], xs[1], ys[0], ys[1], v)
    else Interp(xs[1..], ys[1..], v)
  }

  /** Interpolating at a sample position returns that sample exactly. */
  lemma {:induction false} InterpAtSample(xs: seq<real>, ys: seq<real>, k: nat)
    requires |xs| == |ys| >= 1 && Increasing(xs)
    requires k < |xs|
    ensures Interp(xs, ys, xs[k]) == ys[k]
  {
    if k > 0 {
      IncreasingApart(xs, 0, k);
      if k > 1 {
        IncreasingApart(xs, 1, k);
        InterpAtSample(xs[1..], ys[1..], k - 1);
      }
    }
  }

  /** Positions further right in an increasing sequence are larger. */
  lemma {:induction false} IncreasingApart(xs: seq<real>, i: nat, k: nat)
    requires Increasing(xs)
    ensures i < k < |xs| ==> xs[i] < xs[k]
    decreases k - i
  {
    if i + 1 < k < |xs| {
      IncreasingApart(xs, i + 1, k);
    }
  }

  /** Strictly inside the cell [xs[k], xs[k+1]] (right end included) the
      interpolant is the line through the cell's two samples. */
  lemma {:induction false} InterpOnCell(xs: seq<real>, ys: seq<real>, k: nat, v: real)
    requires |xs| == |ys| >= 1 && Increasing(xs)
    requires k + 1 < |xs|
    requires xs[k] < v <= xs[k + 1]
    ensures Interp(xs, ys, v) == Lerp(xs[k], xs[k + 1], ys[k], ys[k + 1], v)
  {
    if k > 0 {
      IncreasingApart(xs, 0, k);
      if k > 1 {
        IncreasingApart(xs, 1, k);
      }
      InterpOnCell(xs[1..], ys[1..], k - 1, v);
    }
  }

  /** Interpolation never leaves the band the samples lie in. */
  lemma {:induction false} InterpWithinBand(xs: seq<real>, ys: seq<real>, v: real, lo: real, hi: real)
    requires |xs| == |ys| >= 1 && Increasing(xs)
    requires forall i :: 0 <= i < |ys| ==> lo <= ys[i] <= hi
    ensures lo <= Interp(xs, ys, v) <= hi
    decreases |xs|
  {
    if v <= xs[0] || |xs| == 1 {
    } else if v <= xs[1] {
      assert lo <= ys[1] <= hi;
    } else {
      InterpWithinBand(xs[1..], ys[1..], v, lo, hi);
    }
  }

  /** Sum of the samples of a curve. */
  function Sum(ys: seq<real>): real {
    if |ys| == 0 then 0.0 else Sum(ys[..|ys| - 1]) + ys[|ys| - 1]
  }

  /** Sum of position times sample, the centroid's numerator. */
  function Moment(xs: seq<real>, ys: seq<real>): real
    requires |xs| == |ys|
  {
    if |ys| == 0 then 0.0
    else Moment(xs[..|xs| - 1], ys[..|ys| - 1]) + xs[|xs| - 1] * ys[|ys| - 1]
  }

  predicate NonNegative(ys: seq<real>) {
    forall i :: 0 <= i < |ys| ==> ys[i] >= 0.0
  }

  predicate AllZero(ys: seq<real>) {
    forall i :: 0 <= i < |ys| ==> ys[i] == 0.0
  }

  /** A curve without negative samples has zero area exactly when every
      sample is zero; otherwise its area is positive. */
  lemma {:induction false} SumZeroIff(ys: seq<real>)
    ensures NonNegative(ys) ==> Sum(ys) >= 0.0
    ensures NonNegative(ys) ==> (Sum(ys) == 0.0 <==> AllZero(ys))
  {
    if |ys| > 0 && NonNegative(ys) {
      var init := ys[..|ys| - 1];
      assert NonNegative(init);
      SumZeroIff(init);
      if AllZero(ys) {
        assert AllZero(init);
      }
      if Sum(ys) == 0.0 {
        assert forall i :: 0 <= i < |ys| ==> ys[i] == 0.0 by {
          forall i | 0 <= i < |ys|
            ensures ys[i] == 0.0
          {
            if i < |ys| - 1 {
              assert ys[i] == init[i];
            }
          }
        }
      }
    }
  }

  /** Centre of mass of the samples `ys` over the positions `xs`,
      sum(x * mu) / sum(mu); absent when the samples sum to zero. */
  function Centroid(xs: seq<real>, ys: seq<real>): (r: Option<real>)
    requires |xs| == |ys|
    ensures NonNegative(ys) ==> (r.None? <==> AllZero(ys))
    ensures r.Some? ==> r.value * Sum(ys) == Moment(xs, ys)
  {
    SumZeroIff(ys);
    var area := Sum(ys);
    if area == 0.0 then None else Some(Moment(xs, ys) / area)
  }

  /** With non-negative weights the moment lies between the area scaled
      by the smallest and by the largest position. */
  lemma {:induction false} MomentWithinBand(xs: seq<real>, ys: seq<real>, lo: real, hi: real)
    requires |xs| == |ys| && NonNegative(ys)
    requires forall i :: 0 <= i < |xs| ==> lo <= xs[i] <= hi
    ensures lo * Sum(ys) <= Moment(xs, ys) <= hi * Sum(ys)
  {
    if |ys| > 0 {
      var n := |ys| - 1;
      assert NonNegative(ys[..n]);
      assert forall i :: 0 <= i < n ==> xs[..n][i] == xs[i];
      MomentWithinBand(xs[..n], ys[..n], lo, hi);
      assert lo <= xs[n] <= hi;
      assert (xs[n] - lo) * ys[n] >= 0.0;
      assert (hi - xs[n]) * ys[n] >= 0.0;
    }
  }

  /** A centroid over non-negative weights lies within the span of the
      positions. */
  lemma CentroidWithinDomain(xs: seq<real>, ys: seq<real>, lo: real, hi: real)
    requires |xs| == |ys|
    requires forall i :: 0 <= i < |xs| ==> lo <= xs[i] <= hi
    ensures NonNegative(ys) && Centroid(xs, ys).Some? ==> lo <= Centroid(xs, ys).value <= hi
  {
    if NonNegative(ys) && Centroid(xs, ys).Some? {
      SumZeroIff(ys);
      MomentWithinBand(xs, ys, lo, hi);
      RatioWithinBand(Moment(xs, ys), Sum(ys), lo, hi);
    }
  }

  lemma RatioWithinBand(m: real, s: real, lo: real, hi: real)
    requires s > 0.0 && lo * s <= m <= hi * s
    ensures lo <= m / s <= hi
  {
    var c := m / s;
    assert c * s == m;
    CancelPositive(lo, c, s);
    CancelPositive(c, hi, s);
  }
}

=== FILE: mamdani.dfy ===
/** The two-input Mamdani combiner of mamdani_2_input.py: three triangular
    categories, fuzzification by interpolating the sampled categories,
    three max/min rules, aggregation by max broadcast to a flat curve,
    centroid defuzzification, the admission gate of `main`, and the
    first-match scan of `detect_objects`. */
module Mamdani {
  import opened Common
  import opened FuzzyLib

  // ---------------------------------------------------------------------
  // The sample domain 0, 0.1, ..., 1.0
  // ---------------------------------------------------------------------

  /** Number of samples of the domain. */
  const GridSize: nat := 11

  /** The first `n` points k/10 of the sample grid. */
  function GridPoints(n: nat): seq<real> {
    seq(n, k => k as real / 10.0)
  }

  /** The domain every curve is sampled on. */
  const Grid: seq<real> := GridPoints(GridSize)

  lemma GridWellFormed()
    ensures |Grid| == GridSize
    ensures Increasing(Grid)
    ensures forall k :: 0 <= k < |Grid| ==> 0.0 <= Grid[k] <= 1.0
  {
  }

  // ---------------------------------------------------------------------
  // Membership functions
  // ---------------------------------------------------------------------

  /** The three fuzzy categories, shared by both inputs. */
  datatype Category = Low | Medium | High

  /** Membership degree of `x` in a category: the triangles with
      breakpoints [0, 0, 0.5], [0, 0.5, 1] and [0.5, 1, 1]. */
  function Degree(c: Category, x: real): (r: real)
    ensures 0.0 <= r <= 1.0
    ensures r == 1.0 <==> x == Peak(c)
  {
    match c
    case Low => Trimf(0.0, 0.0, 0.5, x)
    case Medium => Trimf(0.0, 0.5, 1.0, x)
    case High => Trimf(0.5, 1.0, 1.0, x)
  }

  /** Where each category's triangle reaches 1. */
  function Peak(c: Category): real {
    match c
    case Low => 0.0
    case Medium => 0.5
    case High => 1.0
  }

  /** A category sampled on the grid. */
  function Curve(c: Category): seq<real> {
    seq(GridSize, k => Degree(c, k as real / 10.0))
  }

  /** Where each category peaks and where it vanishes. */
  lemma CategoryShapes(x: real)
    ensures Degree(Low, 0.0) == 1.0 && Degree(Medium, 0.5) == 1.0 && Degree(High, 1.0) == 1.0
    ensures x >= 0.5 ==> Degree(Low, x) == 0.0
    ensures x <= 0.5 ==> Degree(High, x) == 0.0
    ensures (Degree(Medium, x) == 0.0) <==> (x <= 0.0 || x >= 1.0)
  {
  }

  /** On the domain the three degrees lie in [0, 1] and add up to 1. */
  lemma PartitionOfUnity(x: real)
    requires 0.0 <= x <= 1.0
    ensures Degree(Low, x) + Degree(Medium, x) + Degree(High, x) == 1.0
    ensures forall c: Category :: 0.0 <= Degree(c, x) <= 1.0
  {
  }

  /** The medium triangle is symmetric about 0.5. */
  lemma MediumSymmetric(d: real)
    requires 0.0 <= d <= 0.5
    ensures Degree(Medium, 0.5 - d) == Degree(Medium, 0.5 + d)
  {
  }

  /** Each category is a straight line on each half of the domain; the
      halves meet at 0.5, which is a grid point. */
  function Line(c: Category, upper: bool, x: real): real {
    match c
    case Low => if upper then 0.0 else 1.0 - 2.0 * x
    case Medium => if upper then 2.0 - 2.0 * x else 2.0 * x
    case High => if upper then 2.0 * x - 1.0 else 0.0
  }

  lemma DegreeOnHalves(c: Category, x: real)
    requires 0.0 <= x <= 1.0
    ensures x <= 0.5 ==> Degree(c, x) == Line(c, false, x)
    ensures x >= 0.5 ==> Degree(c, x) == Line(c, true, x)
  {
  }

  /** Interpolating between two points of a line gives the line. */
  lemma LerpOfLine(a: real, b: real, x0: real, x1: real, v: real)
    requires x0 < x1
    ensures Lerp(x0, x1, a + b * x0, a + b * x1, v) == a + b * v
  {
    var d := x1 - x0;
    var t := (v - x0) / d;
    assert t * d == v - x0;
    assert (a + b * x1) - (a + b * x0) == b * d;
    assert t * (b * d) == b * (t * d);
  }

  lemma LerpOfCategory(c: Category, upper: bool, x0: real, x1: real, v: real)
    requires x0 < x1
    ensures Lerp(x0, x1, Line(c, upper, x0), Line(c, upper, x1), v) == Line(c, upper, v)
  {
    match c
    case Low =>
      if upper { LerpOfLine(0.0, 0.0, x0, x1, v); } else { LerpOfLine(1.0, -2.0, x0, x1, v); }
    case Medium =>
      if upper { LerpOfLine(2.0, -2.0, x0, x1, v); } else { LerpOfLine(0.0, 2.0, x0, x1, v); }
    case High =>
      if upper { LerpOfLine(-1.0, 2.0, x0, x1, v); } else { LerpOfLine(0.0, 0.0, x0, x1, v); }
  }

  /** Interpolating the 11-sample curve is exact: every breakpoint of the
      three triangles (0, 0.5 and 1) is a grid point, so each grid cell lies
      on one straight piece of the triangle. */
  lemma InterpolationExact(c: Category, v: real)
    requires 0.0 <= v <= 1.0
    ensures Interp(Grid, Curve(c), v) == Degree(c, v)
  {
    GridWellFormed();
    if v > 0.0 {
      var f := (10.0 * v).Floor;
      var k := if f as real == 10.0 * v then f - 1 else f;
      assert 0 <= k < GridSize - 1;
      assert Grid[k] == k as real / 10.0 && Grid[k + 1] == (k + 1) as real / 10.0;
      assert Grid[k] < v <= Grid[k + 1];
      InterpOnCell(Grid, Curve(c), k, v);
      var upper := k >= 5;
      DegreeOnHalves(c, Grid[k]);
      DegreeOnHalves(c, Grid[k + 1]);
      DegreeOnHalves(c, v);
      LerpOfCategory(c, upper, Grid[k], Grid[k + 1], v);
    }
  }

  // ---------------------------------------------------------------------
  // Fuzzification and rules
  // ---------------------------------------------------------------------

  /** Degrees of the three categories: the fuzzified input, and also the
      three rule outputs. */
  datatype Grades = Grades(low: real, medium: real, high: real)

  predicate InUnit(g: Grades) {
    0.0 <= g.low <= 1.0 && 0.0 <= g.medium <= 1.0 && 0.0 <= g.high <= 1.0
  }

  /** Membership degrees of one input, read off the sampled categories by
      interpolation. */
  function Fuzzify(v: Confidence): (g: Grades)
    ensures g == Grades(Degree(Low, v), Degree(Medium, v), Degree(High, v))
    ensures InUnit(g) && g.low + g.medium + g.high == 1.0
  {
    GridWellFormed();
    InterpolationExact(Low, v);
    InterpolationExact(Medium, v);
    InterpolationExact(High, v);
    PartitionOfUnity(v);
    Grades(Interp(Grid, Curve(Low), v), Interp(Grid, Curve(Medium), v), Interp(Grid, Curve(High), v))
  }

  /** The three rules: low = max(in1 low, in2 high), medium = min(in1
      medium, in2 medium), high = max(in1 high, in2 medium). */
  function FuzzyRules(in1: Confidence, in2: Confidence): (out: Grades)
    ensures out.low == Max(Degree(Low, in1), Degree(High, in2))
    ensures out.medium == Min(Degree(Medium, in1), Degree(Medium, in2))
    ensures out.high == Max(Degree(High, in1), Degree(Medium, in2))
    ensures InUnit(out)
  {
    var g1 := Fuzzify(in1);
    var g2 := Fuzzify(in2);
    Grades(Max(g1.low, g2.high), Min(g1.medium, g2.medium), Max(g1.high, g2.medium))
  }

  /** All three rule degrees vanish for exactly one pair of inputs. */
  lemma RulesVanishExactly(in1: Confidence, in2: Confidence)
    ensures FuzzyRules(in1, in2) == Grades(0.0, 0.0, 0.0) <==> in1 == 0.5 && in2 == 0.0
  {
    CategoryShapes(in1);
    CategoryShapes(in2);
  }

  // ---------------------------------------------------------------------
  // Aggregation and defuzzification
  // ---------------------------------------------------------------------

  /** Outcome of defuzzification: a crisp value, the size-check failure
      (the source's `None`), or a curve of zero area whose centroid is
      undefined. */
  datatype Defuzzified = Crisp(value: real) | SizeMismatch | ZeroArea

  /** The size check and centroid applied to an aggregated curve. */
  function DefuzzifyCurve(aggregated: seq<real>): (r: Defuzzified)
    ensures r == SizeMismatch <==> |aggregated| != GridSize
    ensures |aggregated| == GridSize && NonNegative(aggregated) ==>
              (r == ZeroArea <==> AllZero(aggregated))
    ensures r.Crisp? ==> |aggregated| == |Grid| && r.value * Sum(aggregated) == Moment(Grid, aggregated)
    ensures r.Crisp? && NonNegative(aggregated) ==> 0.0 <= r.value <= 1.0
  {
    GridWellFormed();
    if |Grid| != |aggregated| then SizeMismatch
    else
      match Centroid(Grid, aggregated)
      case None => ZeroArea
      case Some(c) =>
        CentroidWithinDomain(Grid, aggregated, 0.0, 1.0);
        Crisp(c)
  }

  /** A scalar repeated `n` times: a flat curve. */
  function Broadcast(m: real, n: nat): seq<real> {
    seq(n, _ => m)
  }

  lemma {:induction false} SumBroadcast(m: real, n: nat)
    ensures Sum(Broadcast(m, n)) == n as real * m
  {
    if n > 0 {
      assert Broadcast(m, n)[..n - 1] == Broadcast(m, n - 1);
      SumBroadcast(m, n - 1);
    }
  }

  lemma {:induction false} MomentBroadcast(xs: seq<real>, m: real)
    ensures Moment(xs, Broadcast(m, |xs|)) == m * Sum(xs)
  {
    if |xs| > 0 {
      var n := |xs| - 1;
      assert Broadcast(m, |xs|)[..n] == Broadcast(m, n);
      MomentBroadcast(xs[..n], m);
    }
  }

  lemma {:induction false} SumGridPoints(n: nat)
    ensures Sum(GridPoints(n)) == (n * (n - 1)) as real / 20.0
  {
    if n > 0 {
      assert GridPoints(n)[..n - 1] == GridPoints(n - 1);
      SumGridPoints(n - 1);
      assert n * (n - 1) == (n - 1) * (n - 2) + 2 * (n - 1);
    }
  }

  /** The centroid of a flat curve of height m over the grid is the middle
      of the domain, 0.5, unless m is 0 and the area vanishes. */
  lemma FlatCentroid(m: real)
    ensures m == 0.0 ==> Centroid(Grid, Broadcast(m, GridSize)) == None
    ensures m != 0.0 ==> Centroid(Grid, Broadcast(m, GridSize)) == Some(0.5)
  {
    SumBroadcast(m, GridSize);
    MomentBroadcast(Grid, m);
    SumGridPoints(GridSize);
    assert Sum(Grid) == 5.5;
    var curve := Broadcast(m, GridSize);
    assert Sum(curve) == 11.0 * m;
    assert Moment(Grid, curve) == m * 5.5;
    if m != 0.0 {
      assert (m * 5.5) / (11.0 * m) == 0.5 by {
        assert 0.5 * (11.0 * m) == m * 5.5;
      }
    }
  }

  /** Aggregation takes the max of the three rule degrees; the result is a
      scalar, so it is broadcast to one flat curve over the whole grid and
      the size check always passes. Every crisp result is therefore 0.5,
      whatever the inputs were; only the zero curve has no centroid. */
  function Defuzzification(out: Grades): (r: Defuzzified)
    ensures r != SizeMismatch
    ensures r.Crisp? ==> r.value == 0.5
    ensures InUnit(out) ==> (r == ZeroArea <==> out == Grades(0.0, 0.0, 0.0))
  {
    var aggregated := Max(out.low, Max(out.medium, out.high));
    FlatCentroid(aggregated);
    DefuzzifyCurve(Broadcast(aggregated, GridSize))
  }

  // ---------------------------------------------------------------------
  // The admission gate and the decision of `main`
  // ---------------------------------------------------------------------

  /** Threshold the gate compares the leading input against. */
  const WeakThreshold: real := 0.07

  /** Threshold the gate compares the second input against when both are
      present, and the one the comment above the gate names. */
  const StrongThreshold: real := 0.7

  /** The admission rule as written: the combiner runs only when one input
      exceeds 0.07 and the other is exactly 0, or input 1 exceeds 0.07 and
      input 2 exceeds 0.7. */
  function Admits(in1: Confidence, in2: Confidence): (admit: bool)
    ensures admit ==> in1 > WeakThreshold || in2 > WeakThreshold
    ensures in1 > WeakThreshold && 0.0 < in2 <= StrongThreshold ==> !admit
    ensures admit && in1 != 0.0 && in2 != 0.0 ==> in2 > StrongThreshold
  {
    || (in1 > WeakThreshold && in2 == 0.0)
    || (in2 > WeakThreshold && in1 == 0.0)
    || (in1 > WeakThreshold && in2 > StrongThreshold)
  }

  /** What `main` does with two confidences: either the gate rejects them,
      or the combiner runs and yields a defuzzified outcome. */
  datatype Decision = Rejected | Admitted(result: Defuzzified)

  function Decide(in1: Confidence, in2: Confidence): (d: Decision)
    ensures d.Rejected? <==> !Admits(in1, in2)
    ensures d.Admitted? ==> d.result == Crisp(0.5) || d.result == ZeroArea
    ensures d == Admitted(ZeroArea) <==> in1 == 0.5 && in2 == 0.0
  {
    RulesVanishExactly(in1, in2);
    if Admits(in1, in2) then Admitted(Defuzzification(FuzzyRules(in1, in2)))
    else Rejected
  }

  /** The gate admits (0.5, 0), where every rule degree is 0, so the
      centroid's denominator is zero. */
  lemma DegenerateInputAdmitted()
    ensures Admits(0.5, 0.0)
    ensures FuzzyRules(0.5, 0.0) == Grades(0.0, 0.0, 0.0)
    ensures Decide(0.5, 0.0) == Admitted(ZeroArea)
  {
    RulesVanishExactly(0.5, 0.0);
  }

  /** The gate admits (0.1, 0), a pair in which neither input exceeds 0.7,
      although the comment above it asks for a detection above 0.7. */
  lemma WeakInputAdmitted()
    ensures Admits(0.1, 0.0)
  {
  }

  /** Both inputs fully certain: the result is 0.5 like every other. */
  lemma BothCertainGiveHalf()
    ensures Decide(1.0, 1.0) == Admitted(Crisp(0.5))
  {
    RulesVanishExactly(1.0, 1.0);
  }

  /** The admission rule with 0.7 in every comparison, as the comment
      above the gate states it; in particular it never admits (0.5, 0). */
  function AdmitsIntended(in1: Confidence, in2: Confidence): (admit: bool)
    ensures admit ==> in1 > StrongThreshold || in2 > StrongThreshold
  {
    || (in1 > StrongThreshold && in2 == 0.0)
    || (in2 > StrongThreshold && in1 == 0.0)
    || (in1 > StrongThreshold && in2 > StrongThreshold)
  }

  /** `main` with the intended gate: every admitted pair defuzzifies. */
  function DecideIntended(in1: Confidence, in2: Confidence): (d: Decision)
    ensures d.Rejected? <==> !AdmitsIntended(in1, in2)
    ensures d.Admitted? ==> d.result == Crisp(0.5)
  {
    if AdmitsIntended(in1, in2) then
      RulesVanishExactly(in1, in2);
      Admitted(Defuzzification(FuzzyRules(in1, in2)))
    else Rejected
  }

  // ---------------------------------------------------------------------
  // The detector adapter
  // ---------------------------------------------------------------------

  /** Class the first model is asked about. */
  const FirstTarget: string := "boobs"

  /** Class the second model is asked about. */
  const SecondTarget: string := "naked female genitals"

  /** Confidence of the first detection of the target class, scanning the
      boxes of all result frames in order; 0 when there is none. */
  function FirstMatch(dets: seq<Detection>, target: string): (conf: Confidence)
    ensures (forall i :: 0 <= i < |dets| ==> dets[i].className != target) ==> conf == 0.0
    ensures forall i :: 0 <= i < |dets| && dets[i].className == target &&
                        (forall j :: 0 <= j < i ==> dets[j].className != target) ==>
                          conf == dets[i].conf
  {
    if |dets| == 0 then 0.0
    else if dets[0].className == target then dets[0].conf
    else FirstMatch(dets[1..], target)
  }

  /** `detect_objects`: a model run that failed (`None`) reads as 0. */
  function DetectObjects(run: Option<seq<Detection>>, target: string): (conf: Confidence)
    ensures run.None? ==> conf == 0.0
    ensures run.Some? && (forall i :: 0 <= i < |run.value| ==> run.value[i].className != target) ==>
              conf == 0.0
    ensures run.Some? ==>
              forall i :: 0 <= i < |run.value| && run.value[i].className == target &&
                          (forall j :: 0 <= j < i ==> run.value[j].className != target) ==>
                            conf == run.value[i].conf
  {
    match run
    case None => 0.0
    case Some(dets) => FirstMatch(dets, target)
  }

  /** Index of the first detection of the target, given that one exists
      at or before `bound`. */
  lemma FirstIndex(dets: seq<Detection>, target: string, bound: nat) returns (k: nat)
    requires bound < |dets| && dets[bound].className == target
    ensures k <= bound && dets[k].className == target
    ensures forall j :: 0 <= j < k ==> dets[j].className != target
  {
    k := bound;
    while exists j :: 0 <= j < k && dets[j].className == target
      invariant k <= bound && dets[k].className == target
      decreases k
    {
      var j :| 0 <= j < k && dets[j].className == target;
      k := j;
    }
  }

  /** The whole of `main` after the model runs: both adapters, the gate and
      the combiner. */
  function Evaluate(run1: Option<seq<Detection>>, run2: Option<seq<Detection>>): (d: Decision)
    ensures run1.None? && run2.None? ==> d == Rejected
    ensures d.Admitted? ==> d.result == Crisp(0.5) || d.result == ZeroArea
    ensures d.Rejected? <==> !Admits(DetectObjects(run1, FirstTarget), DetectObjects(run2, SecondTarget))
    ensures d == Admitted(ZeroArea) <==>
              DetectObjects(run1, FirstTarget) == 0.5 && DetectObjects(run2, SecondTarget) == 0.0
  {
    Decide(DetectObjects(run1, FirstTarget), DetectObjects(run2, SecondTarget))
  }

  /** A failed second-model run reads as 0, so a first-model confidence of
      exactly 0.5 takes `main` to the zero-area centroid. */
  lemma FailedSecondRunReachesZeroArea()
    ensures Evaluate(Some([Detection(FirstTarget, 0.5)]), None) == Admitted(ZeroArea)
  {
    assert DetectObjects(Some([Detection(FirstTarget, 0.5)]), FirstTarget) == 0.5;
  }
}

=== FILE: threshold.dfy ===
/** The threshold combiner of no_mamdani.py: each model's detections are
    folded into a map from class name to the highest confidence seen for
    that class, the two maps are merged with the second model winning on
    a shared class, and the content is explicit when any merged confidence
    is strictly above 0.7. */
module Threshold {
  import opened Common

  /** Class name to confidence, as `detect_objects` returns it. */
  type Confidences = map<string, Confidence>

  /** A merged confidence strictly above this marks the content explicit. */
  const ExplicitThreshold: real := 0.7

  /** Some detection in `dets` has class `k`. */
  predicate Mentions(dets: seq<Detection>, k: string) {
    exists d :: d in dets && d.className == k
  }

  /** `m` maps every class mentioned in `dets`, and nothing else, to the
      largest confidence among the detections of that class. */
  ghost predicate IsClassMax(m: Confidences, dets: seq<Detection>) {
    && (forall d :: d in dets ==> d.className in m && d.conf <= m[d.className])
    && (forall k :: k in m ==> exists d :: d in dets && d.className == k && d.conf == m[k])
  }

  /** One step of the loop: a new class is stored as is, a known class
      keeps the larger of the two confidences. */
  function Record(m: Confidences, d: Detection): Confidences {
    if d.className !in m then m[d.className := d.conf]
    else m[d.className := Max(m[d.className], d.conf)]
  }

  /** The loop of `detect_objects` over the boxes of all result frames. */
  function FoldMax(dets: seq<Detection>): (m: Confidences)
    ensures IsClassMax(m, dets)
    ensures forall k :: k in m <==> Mentions(dets, k)
  {
    if |dets| == 0 then map[]
    else
      var init := dets[..|dets| - 1];
      assert dets == init + [dets[|dets| - 1]];
      Record(FoldMax(init), dets[|dets| - 1])
  }

  /** At most one map has the class-maximum property for given detections. */
  lemma ClassMaxUnique(m1: Confidences, m2: Confidences, dets: seq<Detection>)
    requires IsClassMax(m1, dets) && IsClassMax(m2, dets)
    ensures m1 == m2
  {
    forall k | k in m1
      ensures k in m2 && m1[k] == m2[k]
    {
      var d1 :| d1 in dets && d1.className == k && d1.conf == m1[k];
      var d2 :| d2 in dets && d2.className == k && d2.conf == m2[k];
      assert m1[k] <= m2[k] && m2[k] <= m1[k];
    }
    forall k | k in m2
      ensures k in m1
    {
      var d2 :| d2 in dets && d2.className == k && d2.conf == m2[k];
    }
  }

  /** The folded map does not depend on the order of the detections. */
  lemma FoldMaxOrderIndependent(d1: seq<Detection>, d2: seq<Detection>)
    requires multiset(d1) == multiset(d2)
    ensures FoldMax(d1) == FoldMax(d2)
  {
    forall d
      ensures d in d1 <==> d in d2
    {
      assert d in d1 <==> d in multiset(d1);
      assert d in d2 <==> d in multiset(d2);
    }
    assert IsClassMax(FoldMax(d2), d1);
    ClassMaxUnique(FoldMax(d1), FoldMax(d2), d1);
  }

  /** `{**c1, **c2}`: every class of either map, the second map's
      confidence winning where both have the class. */
  function Merge(c1: Confidences, c2: Confidences): (m: Confidences)
    ensures m.Keys == c1.Keys + c2.Keys
    ensures forall k :: k in c2 ==> m[k] == c2[k]
    ensures forall k :: k in c1 && k !in c2 ==> m[k] == c1[k]
  {
    c1 + c2
  }

  datatype Verdict = Explicit | Permitted

  /** `any(confidence > 0.7 for confidence in values)`. */
  function Classify(all: Confidences): (v: Verdict)
    ensures v == Explicit <==> exists k :: k in all && all[k] > ExplicitThreshold
    ensures v == Permitted <==> forall k :: k in all ==> all[k] <= ExplicitThreshold
  {
    ValuesOfKeys(all);
    if exists c :: c in all.Values && c > ExplicitThreshold then Explicit else Permitted
  }

  lemma ValuesOfKeys(all: Confidences)
    ensures forall k :: k in all ==> all[k] in all.Values
  {
  }

  /** The whole script after the model runs: fold each model's detections,
      merge, classify. The content is explicit exactly when the second
      model saw something above 0.7, or the first model did in a class the
      second model did not report at all. */
  function Moderate(dets1: seq<Detection>, dets2: seq<Detection>): (v: Verdict)
    ensures v == Explicit <==>
              || (exists d :: d in dets2 && d.conf > ExplicitThreshold)
              || (exists d :: d in dets1 && d.conf > ExplicitThreshold && !Mentions(dets2, d.className))
  {
    Classify(Merge(FoldMax(dets1), FoldMax(dets2)))
  }

  /** No detections from either model: nothing to merge, permitted. */
  lemma NoDetectionsPermitted()
    ensures FoldMax([]) == map[]
    ensures Moderate([], []) == Permitted
  {
  }

  /** The comparison is strict: exactly 0.7 is still permitted. */
  lemma ThresholdIsStrict()
    ensures Classify(map["a" := 0.7]) == Permitted
    ensures Classify(map["a" := 0.71]) == Explicit
  {
    assert map["a" := 0.71]["a"] > ExplicitThreshold;
  }

  /** A first-model confidence above 0.7 is hidden by a lower second-model
      confidence for the same class. */
  lemma LaterModelMasks()
    ensures Classify(FoldMax([Detection("a", 0.9)])) == Explicit
    ensures Moderate([Detection("a", 0.9)], [Detection("a", 0.1)]) == Permitted
  {
    var m1 := FoldMax([Detection("a", 0.9)]);
    var m2 := FoldMax([Detection("a", 0.1)]);
    assert m1 == map["a" := 0.9];
    assert m2 == map["a" := 0.1];
    assert Merge(m1, m2) == map["a" := 0.1];
  }

  /** Merging {a: 0.5} with {a: 0.9, b: 0.3} keeps the second map's a. */
  lemma MergeExample()
    ensures Merge(map["a" := 0.5], map["a" := 0.9, "b" := 0.3]) == map["a" := 0.9, "b" := 0.3]
    ensures Classify(map["a" := 0.9, "b" := 0.3]) == Explicit
  {
    assert map["a" := 0.9, "b" := 0.3]["a"] > ExplicitThreshold;
  }
}
